=== FILE: README.md ===
# FlyBlog Monitor dashboards: a verified model of their decision rules

FlyBlog Monitor watches the participants of a moderated online research
forum. A separate crawler writes its findings, per participant, to a
spreadsheet and to a JSON cache. Two read-only dashboards then present them:

- `dashboard_flyblog_sheets.py` reads the spreadsheet export. Every row holds
  a raw silence cell such as `339h` or `Nigdy` ("never") and a raw
  "Od moderatora" cell: the number of posts since the last moderator post.
- `dshbrd.py` reads the JSON cache. Every entry holds the time of the last
  post and three counters. This dashboard derives the silence and a
  "time ago" text from the current time.

Both pages share the same rules. Each row gets one of six priority labels
(🔴🔴🔴, 🔴🔴, 🔴, 🟡, 🟠, 🟢) from a first-match ladder. The sheets page adds ⚪
for a row whose post count cannot be read. Each page then counts critical,
needs-attention and OK participants. It filters rows by the selected labels
and by a minimum silence and post count, and sorts them from most to least
urgent: by posts since the moderator, then by silence, both descending. A
panel lists at most five critical rows.

The model is functional: immutable records, pure functions over sequences,
and lemmas. It has these modules:

- `Optional`: the `Opt` type for values that may be absent.
- `Seqs`: filtering, counting and slicing.
- `PyInt`: Python's `int(text)` and `str(n)` on integers.
- `Priority`: the labels and the ladder. It also holds the ladder as a rule
  table, used as an independent reference definition.
- `Ranking`: the descending sort.
- `SheetsDashboard` and `JsonDashboard`: the two pages.
- `Variants`: where the two pages disagree.

The current time is a parameter `now`, in whole seconds. The ISO-8601 reader
`datetime.fromisoformat` is a parameter of type `string -> Opt<Instant>`.
The sidebar values are the parameters `selected`, `silenceMin` and `postsMin`.

Behaviour the model makes explicit:

- In `dshbrd.py` a timestamp in the future gives a negative silence. The
  elapsed time is not made absolute. The time-ago text then uses Python's
  floored day count, so one minute in the future is shown as `23h 59m temu`
  (`JsonDashboard.FutureTimestampShowsAlmostADay`).
- In `dshbrd.py` the silence value is not capped at 999. A real silence of
  999 hours or more is shown as `Nigdy` and is dropped by the filter, like a
  missing one. The sheets page shows such a cell (`1200h`) as written and
  keeps the row with silence 1200.
- On the sheets page the labels are computed before the post column is
  coerced to numbers. A row whose post cell `int()` cannot read is ⚪, but the
  counters see the coerced value for it: 0 for text that is no number at
  all, as in the model. So the critical counter can exceed the number of
  🔴🔴🔴/🔴🔴 rows (`SheetsDashboard.CriticalCountCanExceedRedPair`). In the
  program a decimal such as `12.0` is also ⚪ yet coerced to 12; the model
  does not cover decimals (see `SheetsDashboard.Coerce` below).
- An unreadable silence counts as 0 hours on the sheets page and as the 999
  sentinel on the JSON page (`Variants.UnreadableSilenceDiffers`).
- The JSON page never shows a participant without a usable silence. The
  sheets page keeps such a row.
- The JSON page's OK counter is stricter than the 🟢 label.

## Model

| member | source | states |
|---|---|---|
| PyInt.ParseInt | dashboard_flyblog_sheets.py:49 | `int(text)` succeeds exactly on an optional sign followed by at least one digit; a `-` literal reads as a value ≤ 0 and any other as a value ≥ 0 |
| PyInt.ShowInt | dashboard_flyblog_sheets.py:49 | `str(n)` writes the canonical literal: an optional `-`, then digits without leading zeros, and never `-0`; `ParseShowInt` reads it back as `n` |
| PyInt.ParseShowInt | dashboard_flyblog_sheets.py:49 | reading back what `str(n)` writes gives `n`, for every integer |
| PyInt.ShowParseCanonical | dashboard_flyblog_sheets.py:49 | conversely, a literal in `str`'s canonical form is exactly what `str` writes for the value `int` reads from it |
| PyInt.NonCanonicalValue | dashboard_flyblog_sheets.py:49 | the literals `str` never writes read as Python reads them: `+d` and `0d` give the value of `d`, and `-d` its negation, so `-0` reads as 0 |
| SheetsDashboard.DeleteAll | dashboard_flyblog_sheets.py:49 | `replace('h', '')` leaves no `h`, keeps every other character with its multiplicity, and changes nothing when there is no `h` |
| SheetsDashboard.DeleteAllAppend | dashboard_flyblog_sheets.py:49 | deleting from a concatenation is the concatenation of the deletions; with the identity on `h`-free text this fixes the result character by character, order included |
| SheetsDashboard.ParseSilenceHours | dashboard_flyblog_sheets.py:43-51 | NA or exactly `Nigdy` gives 999; a whole number gives itself; other text gives the integer left after deleting every `h`, or 0 when that is not an integer literal |
| SheetsDashboard.ParseSilenceOfReport | dashboard_flyblog_sheets.py:43-51 | a cell written as the hour count followed by `h` (as in `339h`) reads back as that count, for every integer |
| SheetsDashboard.EveryHIgnored | dashboard_flyblog_sheets.py:49 | an `h` anywhere in the cell, not only at the end, makes no difference to the hours read, as long as the rest of the cell is not exactly `Nigdy` (`Nigdyh` reads 0, while `Nigdy` reads 999) |
| SheetsDashboard.IntOfCell | dashboard_flyblog_sheets.py:58 | `int()` of the raw posts cell fails on NA and on text that is not a literal, reads text as the integer literal parser does, and returns a whole number unchanged |
| SheetsDashboard.Coerce | dashboard_flyblog_sheets.py:98-101 | on NA, whole numbers and sign-and-digit text, the numeric coercion gives what `int()` would read, and 0 where `int()` would fail |
| SheetsDashboard.PriorityOf | dashboard_flyblog_sheets.py:54-73 | the label is ⚪ exactly when the raw posts cell cannot be read; otherwise it is the ladder over the parsed silence and the posts |
| SheetsDashboard.MissingSilenceIsThreeRed | dashboard_flyblog_sheets.py:57-61 | a readable row with no silence column (which defaults to `Nigdy`) or with an NA silence cell (which `pd.isna` turns into 999) has 999 hours, hence 🔴🔴🔴 |
| SheetsDashboard.LabelSeesRawCell | dashboard_flyblog_sheets.py:95-101 | labels come from the raw cells before coercion: a row with posts `brak` is ⚪ while the coerced column holds 0 for it |
| Priority.Ladder | dashboard_flyblog_sheets.py:60-71 | never ⚪; each of the six labels holds exactly on its region: 🔴🔴🔴 iff silence ≥ 72, 🔴🔴 iff silence < 72 and posts ≥ 10, 🔴 iff 48 ≤ silence < 72 and posts < 10, 🟡 iff silence < 48 and 5 ≤ posts < 10, 🟠 iff 24 ≤ silence < 48 and posts < 5, 🟢 iff silence < 24 and posts < 5 |
| Priority.FirstMatch | dashboard_flyblog_sheets.py:60-71 | evaluating a rule list returns the fallback when no rule fires, and otherwise the label of the first rule that fires |
| Priority.LadderIsFirstMatch | dashboard_flyblog_sheets.py:60-71 | the ladder equals first-match evaluation of its five-rung rule table with 🟢 as the fall-through |
| Priority.LadderMonotone | dashboard_flyblog_sheets.py:60-71 | more silence and more unanswered posts never give a milder label |
| Priority.EmojiInjective | dashboard_flyblog_sheets.py:154 | distinct labels are distinct strings, so filtering on the shown emoji is filtering on the label |
| Priority.ShownRedIsRedPair | dashboard_flyblog_sheets.py:204 | the panel's filter on the shown text `🔴🔴🔴` or `🔴🔴` holds exactly for those two labels |
| Priority.CountersMatchLadder | dashboard_flyblog_sheets.py:112-127 | the critical condition holds exactly for 🔴🔴🔴/🔴🔴; outside it, the warning condition holds exactly for 🔴/🟡/🟠; 🟢 is exactly neither |
| Priority.WarningOverlapsCritical | dashboard_flyblog_sheets.py:122-127 | a row can be both critical and needing attention (long silence with 7 posts; 30 hours with 12 posts) |
| SheetsDashboard.Tally | dashboard_flyblog_sheets.py:112-127 | the counting loops over the rows compute exactly the critical and warning counts, each at most the number of rows |
| SheetsDashboard.CriticalCount | dashboard_flyblog_sheets.py:112-117 | the critical count never exceeds the total |
| SheetsDashboard.WarningCount | dashboard_flyblog_sheets.py:122-127 | the warning count never exceeds the total |
| SheetsDashboard.OkCount | dashboard_flyblog_sheets.py:131 | the OK count (🟢 rows) never exceeds the total |
| SheetsDashboard.CriticalCountIsRedPair | dashboard_flyblog_sheets.py:112-117 | when every posts cell is readable, the critical count equals the number of 🔴🔴🔴/🔴🔴 rows |
| SheetsDashboard.CountersPartitionRows | dashboard_flyblog_sheets.py:112-131 | when every posts cell is readable, critical + (warning and not critical) + OK = total |
| SheetsDashboard.CriticalCountCanExceedRedPair | dashboard_flyblog_sheets.py:112-117 | a row with neither silence nor posts value is ⚪ yet counted critical |
| SheetsDashboard.View | dashboard_flyblog_sheets.py:153-172 | the table holds every row passing the label, silence and posts filters, with its multiplicity, and nothing else; each minimum applies only when its column exists; with both columns it is sorted descending by (posts, silence) |
| SheetsDashboard.CriticalPanel | dashboard_flyblog_sheets.py:204-209 | at most five rows, all 🔴🔴🔴 or 🔴🔴, all taken from the table, and sorted when the table is; unless all five places are taken every copy of every 🔴🔴🔴/🔴🔴 table row is shown, and in a sorted table a red row left out ranks no higher than any shown |
| SheetsDashboard.PanelIsTopFive | dashboard_flyblog_sheets.py:204-209 | the filter on the shown emoji followed by `head(5)` shows only 🔴🔴🔴/🔴🔴 rows, keeps every such row unless five are shown, and in a sorted table stays sorted and leaves out only rows ranking no higher than those shown |
| SheetsDashboard.PanelKeepsEveryCopy | dashboard_flyblog_sheets.py:204-209 | unless `head(5)` fills all five places, the panel holds each 🔴🔴🔴/🔴🔴 row of the table as many times as the table does, and nothing else |
| SheetsDashboard.Render | dashboard_flyblog_sheets.py:104-209 | the page's counters are the critical, warning and OK counts of the rows; its table holds exactly the kept rows with their multiplicity; its panel is the critical panel of that table; with both columns present, table and panel are sorted most urgent first |
| Ranking.Insert | dshbrd.py:105 | inserting into a descending list keeps it descending and adds exactly the one element |
| Ranking.SortDescending | dshbrd.py:105 | the result is a permutation of the input, descending by posts since the moderator, ties by silence |
| Ranking.FilterKeepsDescending | dshbrd.py:145-150 | filtering a sorted list keeps it sorted |
| Ranking.TopOfFiltered | dshbrd.py:180-184 | the first `n` rows passing a filter include every passing row, with its multiplicity, unless all `n` places are taken, and in a sorted list a passing row left out ranks no higher than any taken |
| Ranking.TakeKeepsDescending | dshbrd.py:184 | the first five of a sorted list are sorted and rank at least as urgent as every row after them |
| Seqs.Take | dshbrd.py:184 | `xs[:n]` is a prefix of length `n`, or all of `xs` when it is shorter |
| Seqs.Filter | dashboard_flyblog_sheets.py:154-164 | the boolean mask keeps exactly the rows that pass, each with its multiplicity, and nothing else |
| Seqs.FilterAppend | dashboard_flyblog_sheets.py:154-164 | filtering a concatenation is the concatenation of the filtered parts, so the mask keeps the rows in sheet order |
| Seqs.Count | dshbrd.py:115-123 | `sum(1 for p in participants if …)` is at most the number of participants |
| Seqs.CountIsFilterLength | dshbrd.py:115-123 | the count is the length of the list of participants that pass the condition |
| JsonDashboard.SilenceHours | dshbrd.py:37-45 | no timestamp, an empty one, `Brak danych` or an unreadable one gives 999; otherwise the hours times 3600 equal the seconds elapsed until `now` |
| JsonDashboard.SilenceThresholdInSeconds | dshbrd.py:43 | for a readable timestamp, silence reaches `k` hours exactly when `k * 3600` seconds have elapsed |
| JsonDashboard.Shape | dshbrd.py:54-63 | days > 0 gives the days-and-hours shape with hours in 0..23; otherwise hours in 1..23 give hours and minutes; otherwise minutes in 0..59; for a non-negative elapsed time the shape brackets it to its last unit, days appear exactly from 86400 s on and minutes alone exactly below 3600 s; for a negative one (a future timestamp) there are no days and the shape brackets the elapsed time modulo one day |
| JsonDashboard.FormatTimeAgo | dshbrd.py:48-65 | `Nigdy` exactly without a usable timestamp, `Błąd` exactly when it cannot be read, otherwise the shape of the elapsed seconds |
| JsonDashboard.FutureTimestampShowsAlmostADay | dshbrd.py:53-56 | a timestamp one minute in the future gives 23 hours 59 minutes |
| JsonDashboard.TimeAgoText | dshbrd.py:50-65 | the text is `Nigdy` exactly for the no-timestamp value, `Błąd` exactly for the unreadable one, and every elapsed-time text ends in ` temu` |
| JsonDashboard.TimeAgoTextInjective | dshbrd.py:58-63 | two displayable values with the same text are the same value |
| JsonDashboard.Truncate | dshbrd.py:100 | `int()` of a float truncates toward zero |
| JsonDashboard.ShowHours | dshbrd.py:100 | silence below 999 is shown as its truncated hour count; from 999 on as `Nigdy` |
| JsonDashboard.Build | dshbrd.py:77-102 | the row's label is the ladder over its silence and posts since the moderator; missing counters read as 0; `Nigdy` is shown exactly for silence ≥ 999; no usable or readable timestamp means silence 999; the "last post" column is the time-ago value of the entry's timestamp and the hours column is the shown form of the row's silence |
| JsonDashboard.Participants | dshbrd.py:76-105 | the rows are a permutation of the entries' rows, sorted descending, each labelled by the ladder |
| JsonDashboard.CriticalCount | dshbrd.py:115 | the critical count never exceeds the total |
| JsonDashboard.WarningCount | dshbrd.py:119 | the warning count never exceeds the total |
| JsonDashboard.OkCount | dshbrd.py:123 | the OK count never exceeds the total |
| JsonDashboard.CriticalCountIsRedPair | dshbrd.py:115 | the critical count equals the number of 🔴🔴🔴/🔴🔴 rows |
| JsonDashboard.OkIsStricterThanGreen | dshbrd.py:123 | the OK count is at most the number of 🟢 rows, and a 🟢 row with 3 unanswered posts is not OK |
| JsonDashboard.Table | dshbrd.py:145-150 | the table holds every row with a selected label, silence below 999 and at least both minimums, with its multiplicity, and nothing else; sorted input stays sorted |
| JsonDashboard.CriticalPanel | dshbrd.py:180-184 | at most five rows, all 🔴🔴🔴 or 🔴🔴, taken from the table, and sorted when the table is; unless all five places are taken every copy of every 🔴🔴🔴/🔴🔴 table row is shown, and in a sorted table a red row left out ranks no higher than any shown |
| JsonDashboard.PanelIsTopFive | dshbrd.py:180-184 | the filter on the shown emoji followed by `[:5]` shows only 🔴🔴🔴/🔴🔴 rows, keeps every such row unless five are shown, and in a sorted table stays sorted and leaves out only rows ranking no higher than those shown |
| JsonDashboard.PanelKeepsEveryCopy | dshbrd.py:180-184 | unless `[:5]` fills all five places, the panel holds each 🔴🔴🔴/🔴🔴 row of the table as many times as the table does, and nothing else |
| JsonDashboard.Render | dshbrd.py:76-184 | the counters are the critical, warning and OK counts of all participants; the table holds exactly the kept participants with their multiplicity, sorted and free of silence ≥ 999; the panel is the critical panel of that table |
| Variants.UnreadableSilenceDiffers | dashboard_flyblog_sheets.py:47-51 | an unreadable silence value is 0 hours on the sheets page and 999 on the JSON page |
| Variants.SheetsKeepsNeverPosted | dashboard_flyblog_sheets.py:154-164 | the sheets page labels a `Nigdy` row 🔴🔴🔴 and keeps it in the table when 🔴🔴🔴 is selected and the minimums allow it |
| Variants.JsonDropsNeverPosted | dshbrd.py:148 | the JSON page never shows an entry without a usable timestamp, whatever the sidebar values |
| Variants.OkCountersDiffer | dshbrd.py:123 | for the same numbers both pages give the same label; OK on the JSON page implies 🟢, but not conversely |

## Left out

- Streamlit rendering is not modelled: page setup, metrics, sidebar widgets, tables, expanders, buttons, reruns and caching. The widget values are plain parameters.
- Reading the spreadsheet export over the network and reading the JSON cache file are I/O and are not modelled. The header row with the last-check time (dashboard_flyblog_sheets.py:84-92) is left out for the same reason.
- pandas is replaced by sequences of records. A `DataFrame` is a sequence of `Row`, and `apply` is a function over a row.
- The list of options offered by the status filter (`unique()` of the labels) is not modelled; `selected` may be any set of strings.
- Floating-point cells are left out: `Cell` has NA, text and whole numbers only. A numeric silence column that pandas reads as floats (`12.0`) would fail `int()` after `str()` and read as 0.
- SheetsDashboard.Coerce: models `pd.to_numeric(..., errors='coerce')` only on NA, whole numbers and sign-and-digit text. The program also reads decimals and exponents (`12.0`, `1e1`), which `int()` rejects; such a row is ⚪ in the program but counted and filtered with its numeric value, while the model coerces it to 0.
- PyInt.ParseInt: accepts only an optional sign followed by ASCII digits. Python's `int()` also accepts surrounding whitespace, underscores between digits and non-ASCII digits, and `pd.to_numeric` also accepts decimals and exponents.
- `datetime.now()` and `datetime.fromisoformat` are external: `now` is a parameter and the reader is a function parameter.
- The program reads the clock separately in `calculate_silence_hours` (dshbrd.py:42) and in `format_time_ago` (dshbrd.py:53), for every entry. The model uses one `now` for all readings of one page, so a row whose silence and time-ago text straddle a unit boundary between two readings in the program always agree in the model.
- JsonDashboard.SilenceHours: works in whole seconds, so microseconds are left out. The division by 3600 is exact real arithmetic, not IEEE floating point. A timezone-aware timestamp that cannot be subtracted from a naive `now` counts as an unreadable one.
- JSON values other than integers in the counters are left out. A `null` posts-since-moderator value makes `>=` or the sort's negation raise (dshbrd.py:84-88, 105), and a `null` respondent count is shown as `None` (dshbrd.py:96). Counters are `Opt<int>`, with `Absent` only for a missing key, which reads as 0.
- JsonDashboard.Participants: does not claim that the sort is stable, although Python's `list.sort` is.
- SheetsDashboard.View: does not claim any order among rows with equal keys.
- Seqs.Filter: its own contract states only which elements are kept and with what multiplicity. Their relative order is stated separately, by `Seqs.FilterAppend` and `Ranking.FilterKeepsDescending`.
- An empty spreadsheet export is not a page in the program: dashboard_flyblog_sheets.py:82 skips to the error block at lines 233-240. The model's `SheetsDashboard.Render` on no rows yields a page whose counters are all 0 and whose table and panel are empty; no error page is modelled.
- The crawler is not part of this model: pagination, column discovery, detail views, post extraction, timestamp formats and the quota-based classifier are not among the files modelled.

=== FILE: json_dashboard.dfy ===
/** The dashboard that reads the monitor's JSON cache. Each entry holds the
    time of the participant's last post and three post counters; the page
    derives silence hours and a time-ago text from a clock reading `now`. */
module JsonDashboard {
  import opened Optional
  import PyInt
  import opened Priority
  import Seqs
  import Ranking

  /** An instant in whole seconds on one clock; sub-second parts are not modelled. */
  type Instant = int

  /** The ISO-8601 reader (`datetime.fromisoformat`): Absent where it raises. */
  type IsoReader = string -> Opt<Instant>

  /** One cache entry's fields; Absent where the key is missing. */
  datatype Info = Info(
    lastPostTime: Opt<string>,
    respondentPosts: Opt<int>,
    moderatorPosts: Opt<int>,
    postsSinceModerator: Opt<int>)

  datatype Entry = Entry(email: string, info: Info)

  /** The cache's word for "no data". */
  const NoData := "Brak danych"

  /** Sentinel silence for "never" and "unknown". */
  const NeverHours: real := 999.0

  const SecondsPerMinute := 60
  const SecondsPerHour := 3600
  const SecondsPerDay := 86400

  /** A falsy last-post value, or the "no data" marker. */
  predicate NoTimestamp(last: Opt<string>) {
    last.Absent? || last.value == "" || last.value == NoData
  }

  /** `calculate_silence_hours`: hours elapsed since the last post, or the
      999 sentinel when there is no timestamp or it cannot be read. */
  function SilenceHours(last: Opt<string>, now: Instant, iso: IsoReader): (h: real)
    ensures NoTimestamp(last) ==> h == NeverHours
    ensures !NoTimestamp(last) && iso(last.value).Absent? ==> h == NeverHours
    ensures !NoTimestamp(last) && iso(last.value).Present? ==>
              h * SecondsPerHour as real == (now - iso(last.value).value) as real
  {
    if NoTimestamp(last) then NeverHours
    else match iso(last.value)
      case Absent => NeverHours
      case Present(t) => (now - t) as real / SecondsPerHour as real
  }

  /** Silence thresholds in hours are thresholds in whole seconds: a
      participant reaches `k` hours of silence exactly when `k * 3600`
      seconds have passed since the last post. */
  lemma SilenceThresholdInSeconds(last: Opt<string>, now: Instant, iso: IsoReader, k: int)
    requires !NoTimestamp(last) && iso(last.value).Present?
    ensures SilenceHours(last, now, iso) >= k as real
            <==> now - iso(last.value).value >= k * SecondsPerHour
  {
  }

  /** The three shapes of the "last post" column, plus its two fixed texts. */
  datatype TimeAgo =
    | NeverAgo
    | ParseFailed
    | DaysHours(days: int, hours: int)
    | HoursMinutes(hours: int, minutes: int)
    | MinutesOnly(minutes: int)

  /** `t` describes an elapsed time of `e` seconds, to its coarsest unit. */
  predicate Describes(t: TimeAgo, e: int) {
    match t
    case DaysHours(d, h) =>
      d * SecondsPerDay + h * SecondsPerHour <= e < d * SecondsPerDay + (h + 1) * SecondsPerHour
    case HoursMinutes(h, m) =>
      h * SecondsPerHour + m * SecondsPerMinute <= e < h * SecondsPerHour + (m + 1) * SecondsPerMinute
    case MinutesOnly(m) =>
      m * SecondsPerMinute <= e < (m + 1) * SecondsPerMinute
    case _ => false
  }

  /** Python's `timedelta` split of `e` seconds: whole days (floored) and the
      within-day remainder, then hours and minutes of the remainder. Dafny's
      `/` and `%` with a positive divisor floor the same way. */
  function Shape(e: int): (t: TimeAgo)
    ensures t.DaysHours? ==> t.days > 0 && 0 <= t.hours < 24
    ensures t.HoursMinutes? ==> 0 < t.hours < 24 && 0 <= t.minutes < 60
    ensures t.MinutesOnly? ==> 0 <= t.minutes < 60
    ensures t.DaysHours? || t.HoursMinutes? || t.MinutesOnly?
    ensures e >= 0 ==> Describes(t, e)
    ensures e >= 0 ==> (t.DaysHours? <==> e >= SecondsPerDay)
    ensures e >= 0 ==> (t.MinutesOnly? <==> e < SecondsPerHour)
    ensures e < 0 ==> !t.DaysHours? && Describes(t, e % SecondsPerDay)
  {
    var days := e / SecondsPerDay;
    var seconds := e % SecondsPerDay;
    var hours := seconds / SecondsPerHour;
    var minutes := (seconds % SecondsPerHour) / SecondsPerMinute;
    assert e == days * SecondsPerDay + seconds;
    assert seconds == hours * SecondsPerHour + minutes * SecondsPerMinute + seconds % SecondsPerMinute;
    if days > 0 then DaysHours(days, hours)
    else if hours > 0 then HoursMinutes(hours, minutes)
    else MinutesOnly(minutes)
  }

  /** `format_time_ago`: "Nigdy" without a timestamp, "Błąd" when it cannot
      be read, otherwise the shape of the elapsed time. */
  function FormatTimeAgo(last: Opt<string>, now: Instant, iso: IsoReader): (t: TimeAgo)
    ensures t.NeverAgo? <==> NoTimestamp(last)
    ensures t.ParseFailed? <==> !NoTimestamp(last) && iso(last.value).Absent?
    ensures !NoTimestamp(last) && iso(last.value).Present? ==> t == Shape(now - iso(last.value).value)
  {
    if NoTimestamp(last) then NeverAgo
    else match iso(last.value)
      case Absent => ParseFailed
      case Present(t) => Shape(now - t)
  }

  /** A timestamp one minute in the future is shown as almost a day ago:
      the floored day count is -1 and the remainder is 23h 59m. */
  lemma FutureTimestampShowsAlmostADay()
    ensures Shape(-60) == HoursMinutes(23, 59)
  {
  }

  /** A number followed by its unit letter and the rest of the text. */
  function Numbered(n: int, unit: char, rest: string): (r: string)
    ensures |r| > |rest| && (r[0] == '-' || PyInt.IsDigit(r[0]))
    ensures r[|r| - |rest|..] == rest
  {
    PyInt.ShowInt(n) + [unit] + rest
  }

  /** A number and unit, a space, then a second number and unit, then " temu". */
  function TwoFields(a: int, u: char, b: int, v: char): (r: string)
    ensures |r| > 5 && (r[0] == '-' || PyInt.IsDigit(r[0]))
    ensures r[|r| - 5..] == " temu"
  {
    var inner := Numbered(b, v, " temu");
    var rest := " " + inner;
    assert rest[|rest| - 5..] == inner[|inner| - 5..];
    Numbered(a, u, rest)
  }

  /** The text of the "last post" column: "Nigdy", "Błąd", "{d}d {h}h temu",
      "{h}h {m}m temu" or "{m}m temu". */
  function TimeAgoText(t: TimeAgo): (s: string)
    ensures s == "Nigdy" <==> t.NeverAgo?
    ensures s == "Błąd" <==> t.ParseFailed?
    ensures !t.NeverAgo? && !t.ParseFailed? ==> |s| >= 5 && s[|s| - 5..] == " temu"
  {
    match t
    case NeverAgo => "Nigdy"
    case ParseFailed => "Błąd"
    case DaysHours(d, h) => TwoFields(d, 'd', h, 'h')
    case HoursMinutes(h, m) => TwoFields(h, 'h', m, 'm')
    case MinutesOnly(m) => Numbered(m, 'm', " temu")
  }

  /** The shapes `Shape` and the two fixed texts produce. */
  predicate Displayable(t: TimeAgo) {
    match t
    case DaysHours(d, h) => d > 0 && 0 <= h < 24
    case HoursMinutes(h, m) => 0 < h < 24 && 0 <= m < 60
    case MinutesOnly(m) => 0 <= m < 60
    case _ => true
  }

  // The rest of this section shows that no two displayable values share a
  // text, so modelling the "last post" column by its `TimeAgo` value rather
  // than by its string loses nothing.

  /** Number of leading digits of `s`. */
  function DigitRun(s: string): (n: nat)
    ensures n <= |s|
  {
    if |s| == 0 || !PyInt.IsDigit(s[0]) then 0 else 1 + DigitRun(s[1..])
  }

  lemma {:induction false} DigitRunOf(a: string, c: char, x: string)
    requires PyInt.AllDigits(a) && !PyInt.IsDigit(c)
    ensures DigitRun(a + [c] + x) == |a|
  {
    if |a| > 0 {
      assert (a + [c] + x)[1..] == a[1..] + [c] + x;
      DigitRunOf(a[1..], c, x);
    }
  }

  /** Splitting at the first non-digit: digits, then a marker, then the rest. */
  lemma SplitAtMarker(a: string, c: char, x: string, b: string, c': char, y: string)
    requires PyInt.AllDigits(a) && PyInt.AllDigits(b)
    requires !PyInt.IsDigit(c) && !PyInt.IsDigit(c')
    requires a + [c] + x == b + [c'] + y
    ensures a == b && c == c' && x == y
  {
    var l := a + [c] + x;
    DigitRunOf(a, c, x);
    DigitRunOf(b, c', y);
    assert a == l[..|a|] == b;
    assert c == l[|a|] == c';
    assert x == l[|a| + 1..] == y;
  }

  /** A non-negative number with its unit reads back unambiguously. */
  lemma NumberedInjective(n: int, c: char, x: string, n': int, c': char, x': string)
    requires n >= 0 && n' >= 0 && !PyInt.IsDigit(c) && !PyInt.IsDigit(c')
    requires Numbered(n, c, x) == Numbered(n', c', x')
    ensures n == n' && c == c' && x == x'
  {
    SplitAtMarker(PyInt.ShowInt(n), c, x, PyInt.ShowInt(n'), c', x');
    PyInt.ParseShowInt(n);
    PyInt.ParseShowInt(n');
  }

  /** The displayed text determines the value: no two displayable values
      share a text, so the column can be read back unambiguously. */
  lemma TimeAgoTextInjective(t: TimeAgo, u: TimeAgo)
    requires Displayable(t) && Displayable(u)
    requires TimeAgoText(t) == TimeAgoText(u)
    ensures t == u
  {
    if t.NeverAgo? || t.ParseFailed? {
      if !u.NeverAgo? && !u.ParseFailed? {
        assert false;
      }
    } else if u.NeverAgo? || u.ParseFailed? {
      assert false;
    } else {
      NumberedInjective(FirstField(t), Unit(t), AfterUnit(t), FirstField(u), Unit(u), AfterUnit(u));
      if t.DaysHours? || t.HoursMinutes? {
        var second := if t.DaysHours? then 'h' else 'm';
        assert AfterUnit(t) == " " + Numbered(SecondField(t), second, " temu");
        assert AfterUnit(u) == " " + Numbered(SecondField(u), second, " temu");
        assert AfterUnit(t)[1..] == Numbered(SecondField(t), second, " temu");
        assert AfterUnit(u)[1..] == Numbered(SecondField(u), second, " temu");
        NumberedInjective(SecondField(t), second, " temu", SecondField(u), second, " temu");
      }
    }
  }

  function FirstField(t: TimeAgo): int
    requires !t.NeverAgo? && !t.ParseFailed?
  {
    match t
    case DaysHours(d, _) => d
    case HoursMinutes(h, _) => h
    case MinutesOnly(m) => m
  }

  function SecondField(t: TimeAgo): int
    requires t.DaysHours? || t.HoursMinutes?
  {
    if t.DaysHours? then t.hours else t.minutes
  }

  function Unit(t: TimeAgo): char
    requires !t.NeverAgo? && !t.ParseFailed?
  {
    match t
    case DaysHours(_, _) => 'd'
    case HoursMinutes(_, _) => 'h'
    case MinutesOnly(_) => 'm'
  }

  function AfterUnit(t: TimeAgo): string
    requires !t.NeverAgo? && !t.ParseFailed?
  {
    match t
    case DaysHours(_, h) => " " + Numbered(h, 'h', " temu")
    case HoursMinutes(_, m) => " " + Numbered(m, 'm', " temu")
    case MinutesOnly(_) => " temu"
  }

  /** The "silent for" column: the truncated hour count, or "Nigdy". */
  datatype HoursShown = Hours(n: int) | NeverShown

  /** Python's `int(x)` on a float: truncation toward zero. */
  function Truncate(x: real): (n: int)
    ensures x >= 0.0 ==> n >= 0 && n as real <= x < n as real + 1.0
    ensures x < 0.0 ==> n <= 0 && n as real - 1.0 < x <= n as real
  {
    if x >= 0.0 then x.Floor else -((-x).Floor)
  }

  function ShowHours(h: real): (s: HoursShown)
    ensures s.Hours? <==> h < NeverHours
    ensures s.Hours? ==> s.n == Truncate(h)
  {
    if h < NeverHours then Hours(Truncate(h)) else NeverShown
  }

  /** One row of the participants table. */
  datatype Participant = Participant(
    status: Label,
    email: string,
    respondentPosts: int,
    moderatorPosts: int,
    sinceModerator: int,
    lastPost: TimeAgo,
    shownSilence: HoursShown,
    silence: real)

  /** The row's label is the ladder over its own silence and posts. */
  predicate Labelled(p: Participant) {
    p.status == Ladder(p.silence, p.sinceModerator)
  }

  /** One table row from one cache entry; a missing counter reads as 0. */
  function Build(e: Entry, now: Instant, iso: IsoReader): (p: Participant)
    ensures Labelled(p) && p.status != White
    ensures p.email == e.email
    ensures p.sinceModerator == e.info.postsSinceModerator.ValueOr(0)
    ensures p.respondentPosts == e.info.respondentPosts.ValueOr(0)
    ensures p.moderatorPosts == e.info.moderatorPosts.ValueOr(0)
    ensures p.silence == SilenceHours(e.info.lastPostTime, now, iso)
    ensures p.shownSilence.NeverShown? <==> p.silence >= NeverHours
    ensures p.lastPost.NeverAgo? ==> p.silence == NeverHours
    ensures p.lastPost.ParseFailed? ==> p.silence == NeverHours
    ensures p.lastPost == FormatTimeAgo(e.info.lastPostTime, now, iso)
    ensures p.shownSilence == ShowHours(p.silence)
  {
    var silence := SilenceHours(e.info.lastPostTime, now, iso);
    var since := e.info.postsSinceModerator.ValueOr(0);
    Participant(
      Ladder(silence, since),
      e.email,
      e.info.respondentPosts.ValueOr(0),
      e.info.moderatorPosts.ValueOr(0),
      since,
      FormatTimeAgo(e.info.lastPostTime, now, iso),
      ShowHours(silence),
      silence)
  }

  function SortKey(p: Participant): Ranking.Key {
    Ranking.Key(p.sinceModerator, p.silence)
  }

  /** All entries as rows, most urgent first. */
  function Participants(entries: seq<Entry>, now: Instant, iso: IsoReader): (ps: seq<Participant>)
    ensures |ps| == |entries|
    ensures multiset(ps) == multiset(seq(|entries|, i requires 0 <= i < |entries| => Build(entries[i], now, iso)))
    ensures Ranking.Descending(ps, SortKey)
    ensures forall i :: 0 <= i < |ps| ==> Labelled(ps[i])
  {
    var built := seq(|entries|, i requires 0 <= i < |entries| => Build(entries[i], now, iso));
    var ps := Ranking.SortDescending(built, SortKey);
    assert forall i :: 0 <= i < |ps| ==> ps[i] in multiset(built);
    ps
  }

  function CriticalCount(ps: seq<Participant>): (n: nat)
    ensures n <= |ps|
  {
    Seqs.Count(ps, (p: Participant) => Critical(p.silence, p.sinceModerator))
  }

  function WarningCount(ps: seq<Participant>): (n: nat)
    ensures n <= |ps|
  {
    Seqs.Count(ps, (p: Participant) => Warning(p.silence, p.sinceModerator))
  }

  /** "All OK": nothing unanswered and under a day of silence. */
  predicate IsOk(p: Participant) {
    p.sinceModerator == 0 && p.silence < 24.0
  }

  function OkCount(ps: seq<Participant>): (n: nat)
    ensures n <= |ps|
  {
    Seqs.Count(ps, IsOk)
  }

  /** The critical counter counts exactly the ThreeRed and TwoRed rows. */
  lemma {:induction false} CriticalCountIsRedPair(ps: seq<Participant>)
    requires forall i :: 0 <= i < |ps| ==> Labelled(ps[i])
    ensures CriticalCount(ps) == Seqs.Count(ps, (p: Participant) => IsRedPair(p.status))
  {
    forall i | 0 <= i < |ps|
      ensures Critical(ps[i].silence, ps[i].sinceModerator) <==> IsRedPair(ps[i].status)
    {
      CountersMatchLadder(ps[i].silence, ps[i].sinceModerator);
    }
    Seqs.CountSame(ps, (p: Participant) => Critical(p.silence, p.sinceModerator), (p: Participant) => IsRedPair(p.status));
  }

  /** The OK counter is stricter than the Green label: it never exceeds the
      Green rows, and a Green row with a few unanswered posts is not OK. */
  lemma {:induction false} OkIsStricterThanGreen(ps: seq<Participant>)
    requires forall i :: 0 <= i < |ps| ==> Labelled(ps[i])
    ensures OkCount(ps) <= Seqs.Count(ps, (p: Participant) => p.status == Green)
    ensures var p := Participant(Green, "a@b", 3, 0, 3, MinutesOnly(5), Hours(0), 0.1);
            Labelled(p) && !IsOk(p)
  {
    Seqs.CountMonotone(ps, IsOk, (p: Participant) => p.status == Green);
  }

  /** Which rows survive the sidebar. A row without a usable silence value
      is never kept, whatever the thresholds. */
  predicate Keep(selected: set<string>, silenceMin: int, postsMin: int, p: Participant) {
    && Emoji(p.status) in selected
    && (if p.silence < NeverHours then p.silence >= silenceMin as real else false)
    && p.sinceModerator >= postsMin
  }

  /** The table: the kept rows, in the already sorted order. */
  function Table(ps: seq<Participant>, selected: set<string>, silenceMin: int, postsMin: int)
    : (t: seq<Participant>)
    ensures |t| <= |ps|
    ensures forall i :: 0 <= i < |t| ==> t[i].silence < NeverHours
    ensures forall i :: 0 <= i < |t| ==> Emoji(t[i].status) in selected
    ensures forall i :: 0 <= i < |t| ==> t[i].silence >= silenceMin as real && t[i].sinceModerator >= postsMin
    ensures forall x :: multiset(t)[x] == if Keep(selected, silenceMin, postsMin, x) then multiset(ps)[x] else 0
    ensures Ranking.Descending(ps, SortKey) ==> Ranking.Descending(t, SortKey)
  {
    var t := Seqs.Filter(ps, (p: Participant) => Keep(selected, silenceMin, postsMin, p));
    assert Ranking.Descending(ps, SortKey) ==> Ranking.Descending(t, SortKey) by {
      if Ranking.Descending(ps, SortKey) {
        Ranking.FilterKeepsDescending(ps, (p: Participant) => Keep(selected, silenceMin, postsMin, p), SortKey);
      }
    }
    t
  }

  /** The panel's filter: the row's shown label is 🔴🔴🔴 or 🔴🔴. */
  predicate ShownRedRow(q: Participant) {
    ShownRed(q.status)
  }

  /** The critical panel: the first five table rows labelled ThreeRed or TwoRed. */
  function CriticalPanel(table: seq<Participant>): (p: seq<Participant>)
    ensures |p| <= 5
    ensures forall i :: 0 <= i < |p| ==> IsRedPair(p[i].status)
    ensures multiset(p) <= multiset(table)
    ensures Ranking.Descending(table, SortKey) ==> Ranking.Descending(p, SortKey)
    ensures |p| == 5 || forall i :: 0 <= i < |table| && IsRedPair(table[i].status) ==> table[i] in p
    ensures |p| == 5 || forall x :: multiset(p)[x] == if IsRedPair(x.status) then multiset(table)[x] else 0
    ensures Ranking.Descending(table, SortKey) ==>
              forall i, k :: 0 <= i < |table| && IsRedPair(table[i].status) && table[i] !in p && 0 <= k < |p| ==>
                Ranking.AtLeast(SortKey(p[k]), SortKey(table[i]))
  {
    PanelIsTopFive(table);
    PanelKeepsEveryCopy(table);
    Ranking.TopN(table, ShownRedRow, 5)
  }

  /** The panel's selection is the first five red-pair rows of the table. */
  lemma PanelIsTopFive(table: seq<Participant>)
    ensures |Ranking.TopN(table, ShownRedRow, 5)| == 5 || forall i :: 0 <= i < |table| && IsRedPair(table[i].status) ==> table[i] in Ranking.TopN(table, ShownRedRow, 5)
    ensures Ranking.Descending(table, SortKey) ==>
              forall i, k :: 0 <= i < |table| && IsRedPair(table[i].status) && table[i] !in Ranking.TopN(table, ShownRedRow, 5) && 0 <= k < |Ranking.TopN(table, ShownRedRow, 5)| ==>
                Ranking.AtLeast(SortKey(Ranking.TopN(table, ShownRedRow, 5)[k]), SortKey(table[i]))
    ensures forall i :: 0 <= i < |Ranking.TopN(table, ShownRedRow, 5)| ==> IsRedPair(Ranking.TopN(table, ShownRedRow, 5)[i].status)
    ensures Ranking.Descending(table, SortKey) ==> Ranking.Descending(Ranking.TopN(table, ShownRedRow, 5), SortKey)
  {
    var isRed := ShownRedRow;
    var reds := Seqs.Filter(table, isRed);
    forall i | 0 <= i < |table| ensures isRed(table[i]) <==> IsRedPair(table[i].status) {
      ShownRedIsRedPair(table[i].status);
    }
    forall i | 0 <= i < |reds| ensures IsRedPair(reds[i].status) {
      ShownRedIsRedPair(reds[i].status);
    }
    Ranking.TopOfFiltered(table, isRed, 5, SortKey);
    if Ranking.Descending(table, SortKey) {
      Ranking.FilterKeepsDescending(table, isRed, SortKey);
      Ranking.TakeKeepsDescending(reds, 5, SortKey);
    }
  }

  /** Unless all five places are taken, the panel shows every copy of every
      red-pair row of the table. */
  lemma PanelKeepsEveryCopy(table: seq<Participant>)
    ensures |Ranking.TopN(table, ShownRedRow, 5)| == 5 ||
            forall x :: multiset(Ranking.TopN(table, ShownRedRow, 5))[x] ==
                          if IsRedPair(x.status) then multiset(table)[x] else 0
  {
    forall x ensures ShownRedRow(x) <==> IsRedPair(x.status) {
      ShownRedIsRedPair(x.status);
    }
    Ranking.TopOfFiltered(table, ShownRedRow, 5, SortKey);
  }

  /** Everything the page shows, given the clock and the sidebar's values. */
  datatype Page = Page(total: nat, critical: nat, warning: nat, ok: nat,
                       table: seq<Participant>, panel: seq<Participant>)

  function Render(entries: seq<Entry>, now: Instant, iso: IsoReader,
                  selected: set<string>, silenceMin: int, postsMin: int): (pg: Page)
    ensures pg.total == |entries|
    ensures pg.critical <= pg.total && pg.warning <= pg.total && pg.ok <= pg.total
    ensures |pg.table| <= pg.total
    ensures Ranking.Descending(pg.table, SortKey)
    ensures forall i :: 0 <= i < |pg.table| ==> pg.table[i].silence < NeverHours
    ensures |pg.panel| <= 5 && multiset(pg.panel) <= multiset(pg.table)
    ensures forall i :: 0 <= i < |pg.panel| ==> IsRedPair(pg.panel[i].status)
    ensures var ps := Participants(entries, now, iso);
            && pg.critical == CriticalCount(ps) && pg.warning == WarningCount(ps) && pg.ok == OkCount(ps)
            && (forall x :: multiset(pg.table)[x] == if Keep(selected, silenceMin, postsMin, x) then multiset(ps)[x] else 0)
    ensures pg.panel == CriticalPanel(pg.table)
  {
    var ps := Participants(entries, now, iso);
    var table := Table(ps, selected, silenceMin, postsMin);
    Page(|ps|, CriticalCount(ps), WarningCount(ps), OkCount(ps), table, CriticalPanel(table))
  }
}

=== FILE: priority.dfy ===
/** The six-level priority ladder both dashboards share, over the hours of
    silence and the number of posts since the last moderator post. */
module Priority {

  /** The seven labels a row can carry, named after their glyphs. */
  datatype Label = ThreeRed | TwoRed | OneRed | Yellow | Orange | Green | White

  /** The text shown in the dashboards' status column. */
  function Emoji(l: Label): string {
    match l
    case ThreeRed => "\U{1F534}\U{1F534}\U{1F534}"
    case TwoRed => "\U{1F534}\U{1F534}"
    case OneRed => "\U{1F534}"
    case Yellow => "\U{1F7E1}"
    case Orange => "\U{1F7E0}"
    case Green => "\U{1F7E2}"
    case White => "\U{26AA}"
  }

  /** Distinct labels are shown as distinct strings, so a filter on the
      shown text is a filter on the label. */
  lemma EmojiInjective(a: Label, b: Label)
    ensures Emoji(a) == Emoji(b) <==> a == b
  {
  }

  /** The two labels the critical panel lists. */
  predicate IsRedPair(l: Label) {
    l == ThreeRed || l == TwoRed
  }

  /** The critical panel's filter, on the shown text. */
  predicate ShownRed(l: Label) {
    Emoji(l) in {Emoji(ThreeRed), Emoji(TwoRed)}
  }

  lemma ShownRedIsRedPair(l: Label)
    ensures ShownRed(l) <==> IsRedPair(l)
  {
    EmojiInjective(l, ThreeRed);
    EmojiInjective(l, TwoRed);
  }

  /** Severity rank, most severe highest; White (unreadable row) lowest. */
  function Rank(l: Label): nat {
    match l
    case ThreeRed => 6
    case TwoRed => 5
    case OneRed => 4
    case Yellow => 3
    case Orange => 2
    case Green => 1
    case White => 0
  }

  /** The first-match ladder, evaluated top to bottom: long silence, many
      unanswered posts, medium silence, some unanswered posts, short silence. */
  function Ladder(silence: real, posts: int): (l: Label)
    ensures l != White
    ensures l == ThreeRed <==> silence >= 72.0
    ensures l == TwoRed <==> silence < 72.0 && posts >= 10
    ensures l == OneRed <==> 48.0 <= silence < 72.0 && posts < 10
    ensures l == Yellow <==> silence < 48.0 && 5 <= posts < 10
    ensures l == Orange <==> 24.0 <= silence < 48.0 && posts < 5
    ensures l == Green <==> silence < 24.0 && posts < 5
  {
    if silence >= 72.0 then ThreeRed
    else if posts >= 10 then TwoRed
    else if silence >= 48.0 then OneRed
    else if posts >= 5 then Yellow
    else if silence >= 24.0 then Orange
    else Green
  }

  /** A more severe situation never earns a milder label. */
  lemma LadderMonotone(s1: real, p1: int, s2: real, p2: int)
    requires s1 <= s2 && p1 <= p2
    ensures Rank(Ladder(s1, p1)) <= Rank(Ladder(s2, p2))
  {
  }

  /** The "critical" counter's condition. */
  predicate Critical(silence: real, posts: int) {
    silence >= 72.0 || posts >= 10
  }

  /** The "needs attention" counter's condition. */
  predicate Warning(silence: real, posts: int) {
    (24.0 <= silence < 72.0) || (5 <= posts < 10)
  }

  /** How the counters relate to the ladder: critical is exactly the red
      pair; outside it, warning is exactly the remaining non-green labels;
      green is exactly neither. Warning may overlap critical. */
  lemma CountersMatchLadder(silence: real, posts: int)
    ensures Critical(silence, posts) <==> IsRedPair(Ladder(silence, posts))
    ensures !Critical(silence, posts) ==>
              (Warning(silence, posts) <==> Ladder(silence, posts) in {OneRed, Yellow, Orange})
    ensures Ladder(silence, posts) == Green <==> !Critical(silence, posts) && !Warning(silence, posts)
  {
  }

  /** A row can be counted both as critical and as needing attention. */
  lemma WarningOverlapsCritical()
    ensures Critical(100.0, 7) && Warning(100.0, 7)
    ensures Critical(30.0, 12) && Warning(30.0, 12)
  {
  }

  /** One rung of the ladder as data: a threshold on one of the two inputs. */
  datatype Rule = SilenceAtLeast(hours: real, outcome: Label) | PostsAtLeast(count: int, outcome: Label)

  predicate Fires(rule: Rule, silence: real, posts: int) {
    match rule
    case SilenceAtLeast(h, _) => silence >= h
    case PostsAtLeast(n, _) => posts >= n
  }

  /** The ladder's rungs in evaluation order; Green is the fall-through. */
  const Rules: seq<Rule> := [
    SilenceAtLeast(72.0, ThreeRed),
    PostsAtLeast(10, TwoRed),
    SilenceAtLeast(48.0, OneRed),
    PostsAtLeast(5, Yellow),
    SilenceAtLeast(24.0, Orange)
  ]

  /** Generic first-match evaluation of a rule list. */
  function FirstMatch(rules: seq<Rule>, silence: real, posts: int, fallback: Label): (l: Label)
    ensures (forall i :: 0 <= i < |rules| ==> !Fires(rules[i], silence, posts)) ==> l == fallback
    ensures forall i :: 0 <= i < |rules| && Fires(rules[i], silence, posts)
              && (forall j :: 0 <= j < i ==> !Fires(rules[j], silence, posts))
              ==> l == rules[i].outcome
  {
    if |rules| == 0 then fallback
    else if Fires(rules[0], silence, posts) then rules[0].outcome
    else
      var l := FirstMatch(rules[1..], silence, posts, fallback);
      assert forall i :: 1 <= i < |rules| ==> rules[i] == rules[1..][i - 1];
      l
  }

  /** The ladder is the first-match evaluation of its rule table. */
  lemma LadderIsFirstMatch(silence: real, posts: int)
    ensures Ladder(silence, posts) == FirstMatch(Rules, silence, posts, Green)
  {
    var l := FirstMatch(Rules, silence, posts, Green);
    if silence >= 72.0 {
      assert Fires(Rules[0], silence, posts);
    } else if posts >= 10 {
      assert Fires(Rules[1], silence, posts);
    } else if silence >= 48.0 {
      assert Fires(Rules[2], silence, posts);
    } else if posts >= 5 {
      assert Fires(Rules[3], silence, posts);
    } else if silence >= 24.0 {
      assert Fires(Rules[4], silence, posts);
    } else {
      assert forall i :: 0 <= i < |Rules| ==> !Fires(Rules[i], silence, posts);
    }
  }
}

=== FILE: pyint.dfy ===
/** Python's `int(text)` restricted to an optional sign followed by ASCII
    digits, and `str(n)` for integers, which writes the canonical decimal form. */
module PyInt {
  import opened Optional

  predicate IsDigit(c: char) {
    '0' <= c <= '9'
  }

  predicate AllDigits(s: string) {
    forall i :: 0 <= i < |s| ==> IsDigit(s[i])
  }

  predicate IsSign(c: char) {
    c == '+' || c == '-'
  }

  /** The accepted literal form: an optional sign, then at least one digit. */
  predicate IsLiteral(s: string) {
    if |s| > 0 && IsSign(s[0]) then |s| > 1 && AllDigits(s[1..])
    else |s| > 0 && AllDigits(s)
  }

  /** The literal form `str(n)` produces: no `+`, no `-0`, no leading zeros. */
  predicate IsCanonical(s: string) {
    var body := if |s| > 0 && s[0] == '-' then s[1..] else s;
    && |body| > 0
    && AllDigits(body)
    && (|body| > 1 ==> body[0] != '0')
    && (body != s ==> body != "0")
  }

  function DigitValue(c: char): (d: nat)
    requires IsDigit(c)
    ensures d < 10
  {
    c as int - '0' as int
  }

  function DigitChar(d: nat): (c: char)
    requires d < 10
    ensures IsDigit(c) && DigitValue(c) == d
  {
    ('0' as int + d) as char
  }

  /** Value of a run of decimal digits, most significant first. */
  function DigitsValue(s: string): nat
    requires AllDigits(s)
  {
    if |s| == 0 then 0 else DigitsValue(s[..|s| - 1]) * 10 + DigitValue(s[|s| - 1])
  }

  /** `int(s)`: the integer a literal denotes, Absent where Python raises ValueError. */
  function ParseInt(s: string): (r: Opt<int>)
    ensures r.Present? <==> IsLiteral(s)
    ensures r.Present? && s[0] == '-' ==> r.value <= 0
    ensures r.Present? && s[0] != '-' ==> r.value >= 0
  {
    if |s| > 0 && IsSign(s[0]) then
      if |s| > 1 && AllDigits(s[1..]) then
        var m: int := DigitsValue(s[1..]);
        Present(if s[0] == '-' then -m else m)
      else Absent
    else if |s| > 0 && AllDigits(s) then Present(DigitsValue(s))
    else Absent
  }

  /** Decimal digits of a natural number, without leading zeros. */
  function ShowNat(n: nat): (s: string)
    ensures |s| > 0 && AllDigits(s)
    ensures |s| > 1 ==> s[0] != '0'
  {
    if n < 10 then [DigitChar(n)] else ShowNat(n / 10) + [DigitChar(n % 10)]
  }

  /** `str(n)` for an integer. */
  function ShowInt(n: int): (s: string)
    ensures IsCanonical(s)
  {
    if n < 0 then "-" + ShowNat(-n) else ShowNat(n)
  }

  lemma {:induction false} DigitsValueOfShowNat(n: nat)
    ensures DigitsValue(ShowNat(n)) == n
  {
    if n >= 10 {
      var s := ShowNat(n);
      assert s[..|s| - 1] == ShowNat(n / 10);
      DigitsValueOfShowNat(n / 10);
    }
  }

  /** Reading back what `str` wrote gives the number: `int(str(n)) == n`. */
  lemma ParseShowInt(n: int)
    ensures ParseInt(ShowInt(n)) == Present(n)
  {
    var s := ShowInt(n);
    if n < 0 {
      assert s == "-" + ShowNat(-n);
      assert s[0] == '-' && s[1..] == ShowNat(-n);
      DigitsValueOfShowNat(-n);
      assert IsLiteral(s);
    } else {
      DigitsValueOfShowNat(n);
    }
  }

  lemma {:induction false} ZeroDigits(s: string)
    requires AllDigits(s) && |s| > 0 && s[0] != '0'
    ensures DigitsValue(s) > 0
  {
    if |s| > 1 {
      ZeroDigits(s[..|s| - 1]);
    }
  }

  lemma {:induction false} ShowNatOfDigitsValue(s: string)
    requires AllDigits(s) && |s| > 0
    requires |s| > 1 ==> s[0] != '0'
    ensures ShowNat(DigitsValue(s)) == s
  {
    if |s| > 1 {
      var front := s[..|s| - 1];
      var d := DigitValue(s[|s| - 1]);
      var v := DigitsValue(front);
      ZeroDigits(front);
      ShowNatOfDigitsValue(front);
      var n := v * 10 + d;
      assert n / 10 == v && n % 10 == d;
      assert DigitChar(d) == s[|s| - 1];
      assert s == front + [s[|s| - 1]];
    } else {
      assert DigitChar(DigitValue(s[0])) == s[0];
    }
  }

  /** The converse round trip: a canonical literal is exactly what `str`
      writes for the value `int` reads from it. */
  lemma ShowParseCanonical(s: string)
    requires IsCanonical(s)
    ensures IsLiteral(s) && ParseInt(s).Present?
    ensures ShowInt(ParseInt(s).value) == s
  {
    if |s| > 0 && s[0] == '-' {
      ShowNatOfDigitsValue(s[1..]);
      ZeroDigits(s[1..]);
      assert s == "-" + s[1..];
    } else {
      ShowNatOfDigitsValue(s);
    }
  }

  /** A leading zero does not change the value of a digit run. */
  lemma {:induction false} LeadingZero(d: string)
    requires AllDigits(d)
    ensures AllDigits("0" + d) && DigitsValue("0" + d) == DigitsValue(d)
  {
    var z := "0" + d;
    if |d| == 0 {
      assert z[..|z| - 1] == "";
    } else {
      assert z[..|z| - 1] == "0" + d[..|d| - 1];
      LeadingZero(d[..|d| - 1]);
    }
  }

  /** The values of literals `str` never writes: a `+` sign and a leading
      zero change nothing, and a `-` sign negates (so `-0` reads as 0). */
  lemma NonCanonicalValue(d: string)
    requires |d| > 0 && AllDigits(d)
    ensures ParseInt("+" + d) == ParseInt(d)
    ensures ParseInt("0" + d) == ParseInt(d)
    ensures ParseInt("-" + d) == Present(-ParseInt(d).value)
  {
    assert ("+" + d)[1..] == d;
    assert ("-" + d)[1..] == d;
    LeadingZero(d);
  }
}

=== FILE: ranking.dfy ===
/** Ordering of participant rows for display: descending by posts since the
    last moderator post, ties broken by descending silence. Only the order
    and the permutation are claimed, not stability. */
module Ranking {
  import Seqs

  /** Sort key: posts since the moderator first, hours of silence second. */
  datatype Key = Key(sinceModerator: int, silence: real)

  /** `a` ranks at least as urgent as `b`. */
  predicate AtLeast(a: Key, b: Key) {
    a.sinceModerator > b.sinceModerator
    || (a.sinceModerator == b.sinceModerator && a.silence >= b.silence)
  }

  ghost predicate Descending<T>(xs: seq<T>, key: T -> Key) {
    forall i, j :: 0 <= i < j < |xs| ==> AtLeast(key(xs[i]), key(xs[j]))
  }

  /** Place `x` in front of the first element it ranks at least as urgent as. */
  function Insert<T(!new)>(x: T, xs: seq<T>, key: T -> Key): (r: seq<T>)
    requires Descending(xs, key)
    ensures Descending(r, key)
    ensures multiset(r) == multiset(xs) + multiset{x}
  {
    if |xs| == 0 then [x]
    else if AtLeast(key(x), key(xs[0])) then [x] + xs
    else
      var rest := Insert(x, xs[1..], key);
      assert xs == [xs[0]] + xs[1..];
      assert forall k :: 0 <= k < |rest| ==> AtLeast(key(xs[0]), key(rest[k])) by {
        forall k | 0 <= k < |rest|
          ensures AtLeast(key(xs[0]), key(rest[k]))
        {
          assert rest[k] in multiset(rest);
          if rest[k] != x {
            assert rest[k] in xs[1..];
          }
        }
      }
      [xs[0]] + rest
  }

  /** Descending order of `xs` by `key`: a permutation of `xs`. */
  function SortDescending<T(!new)>(xs: seq<T>, key: T -> Key): (r: seq<T>)
    ensures Descending(r, key)
    ensures multiset(r) == multiset(xs)
    ensures |r| == |xs|
  {
    if |xs| == 0 then []
    else
      assert xs == [xs[0]] + xs[1..];
      Insert(xs[0], SortDescending(xs[1..], key), key)
  }

  /** Filtering a descending sequence keeps it descending. */
  lemma {:induction false} FilterKeepsDescending<T(!new)>(xs: seq<T>, keep: T -> bool, key: T -> Key)
    requires Descending(xs, key)
    ensures Descending(Seqs.Filter(xs, keep), key)
  {
    if |xs| > 0 {
      FilterKeepsDescending(xs[1..], keep, key);
      var rest := Seqs.Filter(xs[1..], keep);
      if keep(xs[0]) {
        assert Seqs.Filter(xs, keep) == [xs[0]] + rest;
        forall k | 0 <= k < |rest|
          ensures AtLeast(key(xs[0]), key(rest[k]))
        {
          assert multiset(rest)[rest[k]] > 0;
          assert rest[k] in xs[1..];
        }
      } else {
        assert Seqs.Filter(xs, keep) == rest;
      }
    }
  }

  /** A prefix of a descending sequence is descending: the first five rows
      shown are the five most urgent. */
  lemma TakeKeepsDescending<T(!new)>(xs: seq<T>, n: nat, key: T -> Key)
    requires Descending(xs, key)
    ensures Descending(Seqs.Take(xs, n), key)
    ensures forall i, j :: 0 <= i < |Seqs.Take(xs, n)| <= j < |xs| ==>
              AtLeast(key(Seqs.Take(xs, n)[i]), key(xs[j]))
  {
  }

  /** The first `n` elements of `xs` that satisfy `keep`, in order. */
  function TopN<T(!new)>(xs: seq<T>, keep: T -> bool, n: nat): seq<T> {
    Seqs.Take(Seqs.Filter(xs, keep), n)
  }

  /** The first `n` rows of `xs` that satisfy `keep`: every kept row of
      `xs` is among them unless all `n` places are taken, and in a
      descending `xs` a kept row left out ranks no higher than any shown. */
  lemma {:induction false} TopOfFiltered<T(!new)>(xs: seq<T>, keep: T -> bool, n: nat, key: T -> Key)
    ensures |TopN(xs, keep, n)| == n || forall i :: 0 <= i < |xs| && keep(xs[i]) ==> xs[i] in TopN(xs, keep, n)
    ensures |TopN(xs, keep, n)| == n ||
            forall x :: multiset(TopN(xs, keep, n))[x] == if keep(x) then multiset(xs)[x] else 0
    ensures Descending(xs, key) ==>
              forall i, k :: 0 <= i < |xs| && keep(xs[i]) && xs[i] !in TopN(xs, keep, n) && 0 <= k < |TopN(xs, keep, n)| ==>
                AtLeast(key(TopN(xs, keep, n)[k]), key(xs[i]))
  {
    var kept := Seqs.Filter(xs, keep);
    var p := TopN(xs, keep, n);
    forall i | 0 <= i < |xs| && keep(xs[i])
      ensures xs[i] in kept
    {
      assert multiset(xs)[xs[i]] > 0;
      assert multiset(kept)[xs[i]] > 0;
    }
    if Descending(xs, key) {
      FilterKeepsDescending(xs, keep, key);
      TakeKeepsDescending(kept, n, key);
      forall i, k | 0 <= i < |xs| && keep(xs[i]) && xs[i] !in p && 0 <= k < |p|
        ensures AtLeast(key(p[k]), key(xs[i]))
      {
        var j :| 0 <= j < |kept| && kept[j] == xs[i];
        assert j >= |p|;
      }
    }
  }
}

=== FILE: seqs.dfy ===
/** Sequence helpers shared by both dashboards: boolean-mask filtering,
    counting rows that satisfy a condition, and Python's `xs[:n]` slice. */
module Seqs {

  /** The elements of `xs` for which `keep` holds, in their original order. */
  function Filter<T(!new)>(xs: seq<T>, keep: T -> bool): (r: seq<T>)
    ensures |r| <= |xs|
    ensures forall i :: 0 <= i < |r| ==> keep(r[i])
    ensures forall x :: multiset(r)[x] == if keep(x) then multiset(xs)[x] else 0
  {
    if |xs| == 0 then []
    else
      assert xs == [xs[0]] + xs[1..];
      if keep(xs[0]) then [xs[0]] + Filter(xs[1..], keep) else Filter(xs[1..], keep)
  }

  /** Number of elements of `xs` satisfying `p`: the `sum(1 for x in xs if p(x))` idiom. */
  function Count<T(!new)>(xs: seq<T>, p: T -> bool): (n: nat)
    ensures n <= |xs|
  {
    if |xs| == 0 then 0
    else (if p(xs[0]) then 1 else 0) + Count(xs[1..], p)
  }

  /** Python's `xs[:n]` for a non-negative `n`. */
  function Take<T(!new)>(xs: seq<T>, n: nat): (r: seq<T>)
    ensures |r| <= n && |r| <= |xs|
    ensures |r| == n || r == xs
    ensures r == xs[..|r|]
    ensures multiset(r) <= multiset(xs)
  {
    if |xs| <= n then xs
    else
      assert xs == xs[..n] + xs[n..];
      xs[..n]
  }

  /** Counting is monotone in the condition. */
  lemma {:induction false} CountMonotone<T(!new)>(xs: seq<T>, p: T -> bool, q: T -> bool)
    requires forall i :: 0 <= i < |xs| ==> p(xs[i]) ==> q(xs[i])
    ensures Count(xs, p) <= Count(xs, q)
  {
    if |xs| > 0 {
      assert forall i :: 0 <= i < |xs[1..]| ==> xs[1..][i] == xs[i + 1];
      CountMonotone(xs[1..], p, q);
    }
  }

  /** Conditions that agree on every element give the same count. */
  lemma {:induction false} CountSame<T(!new)>(xs: seq<T>, p: T -> bool, q: T -> bool)
    requires forall i :: 0 <= i < |xs| ==> (p(xs[i]) <==> q(xs[i]))
    ensures Count(xs, p) == Count(xs, q)
  {
    CountMonotone(xs, p, q);
    CountMonotone(xs, q, p);
  }

  /** Three pairwise exclusive, jointly exhaustive conditions split the length. */
  lemma {:induction false} CountPartition<T(!new)>(xs: seq<T>, a: T -> bool, b: T -> bool, c: T -> bool)
    requires forall i :: 0 <= i < |xs| ==>
               (a(xs[i]) || b(xs[i]) || c(xs[i]))
               && !(a(xs[i]) && b(xs[i])) && !(a(xs[i]) && c(xs[i])) && !(b(xs[i]) && c(xs[i]))
    ensures Count(xs, a) + Count(xs, b) + Count(xs, c) == |xs|
  {
    if |xs| > 0 {
      assert forall i :: 0 <= i < |xs[1..]| ==> xs[1..][i] == xs[i + 1];
      CountPartition(xs[1..], a, b, c);
    }
  }

  /** Counting one more element at the end adds one exactly when it qualifies. */
  lemma {:induction false} CountAppend<T(!new)>(xs: seq<T>, x: T, p: T -> bool)
    ensures Count(xs + [x], p) == Count(xs, p) + (if p(x) then 1 else 0)
  {
    if |xs| > 0 {
      assert (xs + [x])[1..] == xs[1..] + [x];
      CountAppend(xs[1..], x, p);
    } else {
      assert xs + [x] == [x];
    }
  }

  /** Filtering a concatenation filters each part and keeps them in order. */
  lemma {:induction false} FilterAppend<T(!new)>(a: seq<T>, b: seq<T>, keep: T -> bool)
    ensures Filter(a + b, keep) == Filter(a, keep) + Filter(b, keep)
  {
    if |a| > 0 {
      assert (a + b)[1..] == a[1..] + b;
      FilterAppend(a[1..], b, keep);
    } else {
      assert a + b == b;
    }
  }

  /** The count is the length of the filtered sequence. */
  lemma {:induction false} CountIsFilterLength<T(!new)>(xs: seq<T>, p: T -> bool)
    ensures Count(xs, p) == |Filter(xs, p)|
  {
    if |xs| > 0 {
      CountIsFilterLength(xs[1..], p);
    }
  }
}

=== FILE: sheets_dashboard.dfy ===
/** The dashboard that reads the monitor's report from a spreadsheet export.
    Every row carries a raw silence cell such as "339h" or "Nigdy" and a raw
    "posts since moderator" cell; the page labels, counts, filters and sorts them. */
module SheetsDashboard {
  import opened Optional
  import PyInt
  import opened Priority
  import Seqs
  import Ranking

  /** A cell as the CSV reader hands it over: NA, a string, or a whole number. */
  datatype Cell = Missing | Text(s: string) | Whole(n: int)

  /** Whether the sheet has the "Milczenie (h)" and "Od moderatora" columns;
      a column is present or absent for the whole sheet. */
  datatype Columns = Columns(hasSilence: bool, hasSinceModerator: bool)

  datatype Row = Row(nick: string, email: string, silence: Cell, sinceModerator: Cell)

  /** The report's word for "never posted". */
  const Never := "Nigdy"

  /** Sentinel hour count for "never" and "unknown". */
  const NeverHours := 999

  /** `text.replace(c, "")`: every occurrence of `c` removed, the rest kept in order. */
  function DeleteAll(s: string, c: char): (r: string)
    ensures c !in r
    ensures |r| <= |s|
    ensures forall x :: x != c ==> multiset(r)[x] == multiset(s)[x]
    ensures c !in s ==> r == s
  {
    if |s| == 0 then ""
    else
      assert s == [s[0]] + s[1..];
      (if s[0] == c then "" else [s[0]]) + DeleteAll(s[1..], c)
  }

  lemma {:induction false} DeleteAllAppend(a: string, b: string, c: char)
    ensures DeleteAll(a + b, c) == DeleteAll(a, c) + DeleteAll(b, c)
  {
    if |a| > 0 {
      assert (a + b)[1..] == a[1..] + b;
      DeleteAllAppend(a[1..], b, c);
    } else {
      assert a + b == b;
    }
  }

  /** An 'h' anywhere in the cell is ignored, not only a trailing one. */
  lemma EveryHIgnored(a: string, b: string)
    requires a + b != Never
    ensures ParseSilenceHours(Text(a + "h" + b)) == ParseSilenceHours(Text(a + b))
  {
    assert a + "h" + b != Never by {
      assert (a + "h" + b)[|a|] == 'h';
      assert 'h' !in Never;
    }
    DeleteAllAppend(a + "h", b, 'h');
    DeleteAllAppend(a, "h", 'h');
    DeleteAllAppend(a, b, 'h');
    assert DeleteAll("h", 'h') == "";
    assert DeleteAll(a, 'h') + "" == DeleteAll(a, 'h');
  }

  /** `parse_silence_hours`: NA or "Nigdy" is the 999 sentinel; otherwise
      every 'h' is deleted and the rest read as an integer, 0 when that fails. */
  function ParseSilenceHours(c: Cell): (h: int)
    ensures c.Missing? || c == Text(Never) ==> h == NeverHours
    ensures c.Whole? ==> h == c.n
    ensures c.Text? && c.s != Never ==>
              if PyInt.IsLiteral(DeleteAll(c.s, 'h')) then PyInt.ParseInt(DeleteAll(c.s, 'h')) == Present(h)
              else h == 0
  {
    match c
    case Missing => NeverHours
    case Text(s) =>
      if s == Never then NeverHours
      else PyInt.ParseInt(DeleteAll(s, 'h')).ValueOr(0)
    case Whole(n) =>
      // str(n) has no 'h', and int(str(n)) == n
      PyInt.ParseShowInt(n);
      PyInt.ParseInt(DeleteAll(PyInt.ShowInt(n), 'h')).ValueOr(0)
  }

  /** The report writes silence as the hour count followed by 'h'; the
      dashboard reads back exactly that count. */
  lemma ParseSilenceOfReport(n: int)
    ensures ParseSilenceHours(Text(PyInt.ShowInt(n) + "h")) == n
  {
    var s := PyInt.ShowInt(n);
    assert (s + "h")[|s + "h"| - 1] == 'h';
    assert s + "h" != Never by {
      assert Never[|Never| - 1] == 'y';
    }
    DeleteAllAppend(s, "h", 'h');
    assert DeleteAll("h", 'h') == "";
    assert s + "" == s;
    PyInt.ParseShowInt(n);
  }

  /** `int(cell)` as the ladder sees the raw cell: fails on NA and on text
      that is not an integer literal. */
  function IntOfCell(c: Cell): (r: Opt<int>)
    ensures c.Missing? ==> r.Absent?
    ensures c.Whole? ==> r == Present(c.n)
    ensures c.Text? ==> (r.Present? <==> PyInt.IsLiteral(c.s))
    ensures c.Text? ==> r == PyInt.ParseInt(c.s)
  {
    match c
    case Missing => Absent
    case Text(s) => PyInt.ParseInt(s)
    case Whole(n) => Present(n)
  }

  /** `pd.to_numeric(errors='coerce').fillna(0).astype(int)` on one cell:
      whatever `int` would read, and 0 where it would fail. */
  function Coerce(c: Cell): (n: int)
    ensures IntOfCell(c).Present? ==> n == IntOfCell(c).value
    ensures IntOfCell(c).Absent? ==> n == 0
  {
    match c
    case Missing => 0
    case Text(s) => PyInt.ParseInt(s).ValueOr(0)
    case Whole(n) => n
  }

  /** `row.get('Milczenie (h)', 'Nigdy')`. */
  function SilenceCell(cols: Columns, r: Row): Cell {
    if cols.hasSilence then r.silence else Text(Never)
  }

  /** `row.get('Od moderatora', 0)` before numeric coercion. */
  function RawSinceModeratorCell(cols: Columns, r: Row): Cell {
    if cols.hasSinceModerator then r.sinceModerator else Whole(0)
  }

  /** Parsed silence of a row, as the counters and the ladder read it. */
  function SilenceOf(cols: Columns, r: Row): int {
    ParseSilenceHours(SilenceCell(cols, r))
  }

  /** Posts since the moderator after the column has been coerced to int. */
  function SinceModeratorOf(cols: Columns, r: Row): int {
    if cols.hasSinceModerator then Coerce(r.sinceModerator) else 0
  }

  /** `get_priority_emoji`, applied to the raw cells before coercion:
      White exactly when the posts cell cannot be read as an integer,
      otherwise the ladder over the parsed silence and the posts. */
  function PriorityOf(cols: Columns, r: Row): (l: Label)
    ensures l == White <==> IntOfCell(RawSinceModeratorCell(cols, r)).Absent?
    ensures l != White ==> l == Ladder(SilenceOf(cols, r) as real, SinceModeratorOf(cols, r))
  {
    match IntOfCell(RawSinceModeratorCell(cols, r))
    case Absent => White
    case Present(posts) => Ladder(SilenceOf(cols, r) as real, posts)
  }

  /** Without the column, silence defaults to "Nigdy"; an NA cell is read as
      999 hours as well. Either way a readable row is labelled ThreeRed. */
  lemma MissingSilenceIsThreeRed(cols: Columns, r: Row)
    requires !cols.hasSilence || r.silence.Missing?
    requires IntOfCell(RawSinceModeratorCell(cols, r)).Present?
    ensures PriorityOf(cols, r) == ThreeRed
  {
  }

  /** Labels are computed before coercion: a row whose posts cell is not a
      number is White although the coerced column then holds 0 for it. */
  lemma LabelSeesRawCell()
    ensures var r := Row("nick", "a@b", Text("5h"), Text("brak"));
            var cols := Columns(true, true);
            PriorityOf(cols, r) == White && SinceModeratorOf(cols, r) == 0 && SilenceOf(cols, r) == 5
  {
  }

  predicate IsCriticalRow(cols: Columns, r: Row) {
    Critical(SilenceOf(cols, r) as real, SinceModeratorOf(cols, r))
  }

  predicate IsWarningRow(cols: Columns, r: Row) {
    Warning(SilenceOf(cols, r) as real, SinceModeratorOf(cols, r))
  }

  function CriticalCount(cols: Columns, rows: seq<Row>): (n: nat)
    ensures n <= |rows|
  {
    Seqs.Count(rows, r => IsCriticalRow(cols, r))
  }

  function WarningCount(cols: Columns, rows: seq<Row>): (n: nat)
    ensures n <= |rows|
  {
    Seqs.Count(rows, r => IsWarningRow(cols, r))
  }

  /** The two counting loops over the rows, fused into one pass: a row adds
      to `critical` and to `warning` independently. */
  method Tally(cols: Columns, rows: seq<Row>) returns (critical: nat, warning: nat)
    ensures critical == CriticalCount(cols, rows)
    ensures warning == WarningCount(cols, rows)
    ensures critical <= |rows| && warning <= |rows|
  {
    ghost var isCritical := (r: Row) => IsCriticalRow(cols, r);
    ghost var isWarning := (r: Row) => IsWarningRow(cols, r);
    critical, warning := 0, 0;
    var i := 0;
    while i < |rows|
      invariant 0 <= i <= |rows|
      invariant critical == Seqs.Count(rows[..i], isCritical)
      invariant warning == Seqs.Count(rows[..i], isWarning)
    {
      var silence := SilenceOf(cols, rows[i]);
      var posts := SinceModeratorOf(cols, rows[i]);
      assert isCritical(rows[i]) <==> silence >= 72 || posts >= 10;
      assert isWarning(rows[i]) <==> (24 <= silence < 72) || (5 <= posts < 10);
      Seqs.CountAppend(rows[..i], rows[i], isCritical);
      Seqs.CountAppend(rows[..i], rows[i], isWarning);
      assert rows[..i + 1] == rows[..i] + [rows[i]];
      if silence >= 72 || posts >= 10 {
        critical := critical + 1;
      }
      if (24 <= silence < 72) || (5 <= posts < 10) {
        warning := warning + 1;
      }
      i := i + 1;
    }
    assert rows[..|rows|] == rows;
  }

  /** The "all OK" counter counts Green labels. */
  function OkCount(cols: Columns, rows: seq<Row>): (n: nat)
    ensures n <= |rows|
  {
    Seqs.Count(rows, r => PriorityOf(cols, r) == Green)
  }

  /** Where every posts cell is readable, the critical counter counts
      exactly the rows labelled ThreeRed or TwoRed. */
  lemma {:induction false} CriticalCountIsRedPair(cols: Columns, rows: seq<Row>)
    requires forall i :: 0 <= i < |rows| ==> PriorityOf(cols, rows[i]) != White
    ensures CriticalCount(cols, rows) == Seqs.Count(rows, r => IsRedPair(PriorityOf(cols, r)))
  {
    forall i | 0 <= i < |rows|
      ensures IsCriticalRow(cols, rows[i]) <==> IsRedPair(PriorityOf(cols, rows[i]))
    {
      CountersMatchLadder(SilenceOf(cols, rows[i]) as real, SinceModeratorOf(cols, rows[i]));
    }
    Seqs.CountSame(rows, r => IsCriticalRow(cols, r), r => IsRedPair(PriorityOf(cols, r)));
  }

  /** Where every posts cell is readable, each row is critical, or needs
      attention without being critical, or is OK, and only one of them. */
  lemma {:induction false} CountersPartitionRows(cols: Columns, rows: seq<Row>)
    requires forall i :: 0 <= i < |rows| ==> PriorityOf(cols, rows[i]) != White
    ensures CriticalCount(cols, rows)
            + Seqs.Count(rows, r => IsWarningRow(cols, r) && !IsCriticalRow(cols, r))
            + OkCount(cols, rows) == |rows|
  {
    forall i | 0 <= i < |rows|
      ensures PriorityOf(cols, rows[i]) == Green <==> !IsCriticalRow(cols, rows[i]) && !IsWarningRow(cols, rows[i])
    {
      CountersMatchLadder(SilenceOf(cols, rows[i]) as real, SinceModeratorOf(cols, rows[i]));
    }
    Seqs.CountPartition(rows, r => IsCriticalRow(cols, r),
                        r => IsWarningRow(cols, r) && !IsCriticalRow(cols, r),
                        r => PriorityOf(cols, r) == Green);
  }

  /** A White row is still counted by the critical counter when its silence
      alone is critical, so the counter can exceed the red labels shown:
      here a row with neither a silence value nor a posts value. */
  lemma CriticalCountCanExceedRedPair()
    ensures var cols := Columns(true, true);
            var rows := [Row("nick", "a@b", Missing, Missing)];
            CriticalCount(cols, rows) == 1 && Seqs.Count(rows, r => IsRedPair(PriorityOf(cols, r))) == 0
  {
  }

  /** Which rows survive the sidebar: the shown label is among the selected
      ones, and each minimum applies only when its column exists. */
  predicate Keep(cols: Columns, selected: set<string>, silenceMin: int, postsMin: int, r: Row) {
    && Emoji(PriorityOf(cols, r)) in selected
    && (cols.hasSilence ==> ParseSilenceHours(r.silence) >= silenceMin)
    && (cols.hasSinceModerator ==> Coerce(r.sinceModerator) >= postsMin)
  }

  function SortKey(cols: Columns): Row -> Ranking.Key {
    r => Ranking.Key(SinceModeratorOf(cols, r), SilenceOf(cols, r) as real)
  }

  /** The table: the kept rows, sorted only when both columns exist. */
  function View(cols: Columns, rows: seq<Row>, selected: set<string>, silenceMin: int, postsMin: int)
    : (v: seq<Row>)
    ensures |v| <= |rows|
    ensures forall i :: 0 <= i < |v| ==> Keep(cols, selected, silenceMin, postsMin, v[i])
    ensures forall x :: multiset(v)[x] == if Keep(cols, selected, silenceMin, postsMin, x) then multiset(rows)[x] else 0
    ensures cols.hasSilence && cols.hasSinceModerator ==> Ranking.Descending(v, SortKey(cols))
  {
    var kept := Seqs.Filter(rows, r => Keep(cols, selected, silenceMin, postsMin, r));
    if cols.hasSinceModerator && cols.hasSilence then
      var v := Ranking.SortDescending(kept, SortKey(cols));
      assert forall i :: 0 <= i < |v| ==> v[i] in multiset(kept) by {
        forall i | 0 <= i < |v| ensures v[i] in multiset(kept) {
          assert v[i] in multiset(v);
        }
      }
      v
    else kept
  }

  /** The panel's filter: the row's shown label is 🔴🔴🔴 or 🔴🔴. */
  function ShownRedRow(cols: Columns): Row -> bool {
    r => ShownRed(PriorityOf(cols, r))
  }

  /** The critical panel: the first five rows of the table labelled ThreeRed or TwoRed. */
  function CriticalPanel(table: seq<Row>, cols: Columns): (p: seq<Row>)
    ensures |p| <= 5
    ensures forall i :: 0 <= i < |p| ==> IsRedPair(PriorityOf(cols, p[i]))
    ensures multiset(p) <= multiset(table)
    ensures Ranking.Descending(table, SortKey(cols)) ==> Ranking.Descending(p, SortKey(cols))
    ensures |p| == 5 || forall i :: 0 <= i < |table| && IsRedPair(PriorityOf(cols, table[i])) ==> table[i] in p
    ensures |p| == 5 || forall x :: multiset(p)[x] == if IsRedPair(PriorityOf(cols, x)) then multiset(table)[x] else 0
    ensures Ranking.Descending(table, SortKey(cols)) ==>
              forall i, k :: 0 <= i < |table| && IsRedPair(PriorityOf(cols, table[i])) && table[i] !in p && 0 <= k < |p| ==>
                Ranking.AtLeast(SortKey(cols)(p[k]), SortKey(cols)(table[i]))
  {
    PanelIsTopFive(table, cols);
    PanelKeepsEveryCopy(table, cols);
    Ranking.TopN(table, ShownRedRow(cols), 5)
  }

  /** The panel's selection is the first five red-pair rows of the table. */
  lemma PanelIsTopFive(table: seq<Row>, cols: Columns)
    ensures |Ranking.TopN(table, ShownRedRow(cols), 5)| == 5 || forall i :: 0 <= i < |table| && IsRedPair(PriorityOf(cols, table[i])) ==> table[i] in Ranking.TopN(table, ShownRedRow(cols), 5)
    ensures Ranking.Descending(table, SortKey(cols)) ==>
              forall i, k :: 0 <= i < |table| && IsRedPair(PriorityOf(cols, table[i])) && table[i] !in Ranking.TopN(table, ShownRedRow(cols), 5) && 0 <= k < |Ranking.TopN(table, ShownRedRow(cols), 5)| ==>
                Ranking.AtLeast(SortKey(cols)(Ranking.TopN(table, ShownRedRow(cols), 5)[k]), SortKey(cols)(table[i]))
    ensures forall i :: 0 <= i < |Ranking.TopN(table, ShownRedRow(cols), 5)| ==> IsRedPair(PriorityOf(cols, Ranking.TopN(table, ShownRedRow(cols), 5)[i]))
    ensures Ranking.Descending(table, SortKey(cols)) ==> Ranking.Descending(Ranking.TopN(table, ShownRedRow(cols), 5), SortKey(cols))
  {
    var isRed := ShownRedRow(cols);
    var reds := Seqs.Filter(table, isRed);
    forall i | 0 <= i < |table| ensures isRed(table[i]) <==> IsRedPair(PriorityOf(cols, table[i])) {
      ShownRedIsRedPair(PriorityOf(cols, table[i]));
    }
    forall i | 0 <= i < |reds| ensures IsRedPair(PriorityOf(cols, reds[i])) {
      ShownRedIsRedPair(PriorityOf(cols, reds[i]));
    }
    Ranking.TopOfFiltered(table, isRed, 5, SortKey(cols));
    if Ranking.Descending(table, SortKey(cols)) {
      Ranking.FilterKeepsDescending(table, isRed, SortKey(cols));
      Ranking.TakeKeepsDescending(reds, 5, SortKey(cols));
    }
  }

  /** Unless all five places are taken, the panel shows every copy of every
      red-pair row of the table, duplicates included. */
  lemma PanelKeepsEveryCopy(table: seq<Row>, cols: Columns)
    ensures |Ranking.TopN(table, ShownRedRow(cols), 5)| == 5 ||
            forall x :: multiset(Ranking.TopN(table, ShownRedRow(cols), 5))[x] ==
                          if IsRedPair(PriorityOf(cols, x)) then multiset(table)[x] else 0
  {
    forall x ensures ShownRedRow(cols)(x) <==> IsRedPair(PriorityOf(cols, x)) {
      ShownRedIsRedPair(PriorityOf(cols, x));
    }
    Ranking.TopOfFiltered(table, ShownRedRow(cols), 5, SortKey(cols));
  }

  /** Everything the page shows, given the sidebar's values. */
  datatype Page = Page(total: nat, critical: nat, warning: nat, ok: nat, table: seq<Row>, panel: seq<Row>)

  function Render(cols: Columns, rows: seq<Row>, selected: set<string>, silenceMin: int, postsMin: int)
    : (pg: Page)
    ensures pg.total == |rows|
    ensures pg.critical <= pg.total && pg.warning <= pg.total && pg.ok <= pg.total
    ensures |pg.table| <= pg.total
    ensures |pg.panel| <= 5 && multiset(pg.panel) <= multiset(pg.table)
    ensures forall i :: 0 <= i < |pg.panel| ==> IsRedPair(PriorityOf(cols, pg.panel[i]))
    ensures cols.hasSilence && cols.hasSinceModerator ==>
              Ranking.Descending(pg.table, SortKey(cols)) && Ranking.Descending(pg.panel, SortKey(cols))
    ensures pg.critical == CriticalCount(cols, rows) && pg.warning == WarningCount(cols, rows)
    ensures pg.ok == OkCount(cols, rows)
    ensures forall x :: multiset(pg.table)[x] == if Keep(cols, selected, silenceMin, postsMin, x) then multiset(rows)[x] else 0
    ensures pg.panel == CriticalPanel(pg.table, cols)
  {
    var table := View(cols, rows, selected, silenceMin, postsMin);
    Page(|rows|, CriticalCount(cols, rows), WarningCount(cols, rows), OkCount(cols, rows),
         table, CriticalPanel(table, cols))
  }
}

=== FILE: variants.dfy ===
/** Where the two dashboards, which share the priority ladder, disagree. */
module Variants {
  import opened Optional
  import PyInt
  import opened Priority
  import Sheets = SheetsDashboard
  import Json = JsonDashboard

  /** A silence value that cannot be read: the spreadsheet page treats it
      as 0 hours (the mildest case), the cache page as the 999 sentinel. */
  lemma UnreadableSilenceDiffers(s: string, now: Json.Instant, iso: Json.IsoReader)
    requires s != Sheets.Never && !PyInt.IsLiteral(Sheets.DeleteAll(s, 'h'))
    requires !Json.NoTimestamp(Present(s)) && iso(s).Absent?
    ensures Sheets.ParseSilenceHours(Sheets.Text(s)) == 0
    ensures Json.SilenceHours(Present(s), now, iso) == Json.NeverHours
  {
  }

  /** The spreadsheet page keeps a participant who never posted whenever
      ThreeRed is selected and the thresholds allow 999 hours and their
      post count. */
  lemma SheetsKeepsNeverPosted(nick: string, email: string, posts: nat,
                               selected: set<string>, silenceMin: int, postsMin: int)
    requires Emoji(ThreeRed) in selected && silenceMin <= Sheets.NeverHours && postsMin <= posts
    ensures var r := Sheets.Row(nick, email, Sheets.Text(Sheets.Never), Sheets.Whole(posts));
            var cols := Sheets.Columns(true, true);
            Sheets.PriorityOf(cols, r) == ThreeRed
            && r in Sheets.View(cols, [r], selected, silenceMin, postsMin)
  {
  }

  /** The cache page never shows a participant without a usable last-post
      time, whatever the selection and thresholds. */
  lemma JsonDropsNeverPosted(entries: seq<Json.Entry>, now: Json.Instant, iso: Json.IsoReader,
                             selected: set<string>, silenceMin: int, postsMin: int, k: nat)
    requires k < |entries| && Json.NoTimestamp(entries[k].info.lastPostTime)
    ensures Json.Build(entries[k], now, iso) !in
              Json.Render(entries, now, iso, selected, silenceMin, postsMin).table
  {
  }

  /** Given the same whole-hour silence and post count, both pages assign
      the same label; the spreadsheet page counts a row as OK when it is
      Green, the cache page only when it also has no unanswered post, so the
      cache page's OK implies the spreadsheet page's but not conversely. */
  lemma OkCountersDiffer(nick: string, email: string, silence: int, posts: int,
                         p: Json.Participant)
    requires p.silence == silence as real && p.sinceModerator == posts && Json.Labelled(p)
    ensures var r := Sheets.Row(nick, email, Sheets.Whole(silence), Sheets.Whole(posts));
            Sheets.PriorityOf(Sheets.Columns(true, true), r) == p.status
            && (Json.IsOk(p) ==> Sheets.PriorityOf(Sheets.Columns(true, true), r) == Green)
            && (silence == 0 && posts == 3 ==> p.status == Green && !Json.IsOk(p))
  {
  }
}

=== FILE: wrappers.dfy ===
/** A value that may be absent: a dictionary key that is not there, or a
    conversion that raised. */
module Optional {

  datatype Opt<T> = Absent | Present(value: T) {

    /** What a lookup with a fallback yields, as `d.get(key, fallback)` does. */
    function ValueOr(fallback: T): T {
      if Present? then value else fallback
    }
  }
}
